=== FILE: README.md ===
# Keyword-to-action pipeline, modelled in Dafny

This project models the core of an SEO CSV processor (`automate.py`). The
processor turns two search-performance exports into a next-step action per
keyword and splits the result by the clinic landing page it serves. Files
are replaced by the tables they hold. Each stage is a pure function over a
sequence of rows:

1. **Merge and categorise.** An inner join of the two exports on `Terms`.
   Then a `CTR Category` (from `URL CTR`) and a `Position Category` (from
   `Average Position`), then removal of exact duplicate rows (`tables.dfy`,
   `categories.dfy`, `Pipeline.MergeAndCategorize`).
2. **Normalised volume and potential.** `Norm Volume = (Search Volume /
   num_clinics) * conversion_rate` (defaults 35 and 0.1119) and its
   `Potential Category` (`potential.dfy`,
   `Pipeline.AddNormalizedVolumeAndPotential`).
3. **Next steps.** The twelve-branch decision chain over the three stored
   category labels, with default `No Action Required` (`decision.dfy`,
   `Pipeline.DetermineNextSteps`).
4. **Split by clinic.** One group per distinct
   `Clinic Location - Landing pages` value. Each group holds only `Terms`
   and a `cluster` label made by replacing spaces and slashes with
   underscores. Each group is written to `<label>_file.csv` (`partition.dfy`,
   `Pipeline.SplitByClinic`).

Modules:

- `Tables`: rows keyed by `Terms`, the join, and duplicate removal.
- `Categories`: the three category enums, their text labels and the
  threshold categorisers.
- `Potential`: the normalised volume, both as written (floating-point
  division by zero gives an infinity or not-a-number) and with the clinic
  count checked.
- `DecisionMatrix`: three forms of the decision matrix, proved to agree.
  They are the chain over label strings as written, the same branches as a
  rule list searched first-match, and an 18-entry lookup table.
- `Partition`: safe labels, grouping, and the per-group files.
- `Pipeline`: the four stages composed, with an end-to-end lemma.

The columns each stage reads come from whichever input file carries them.
So a merged row's `URL CTR`, `Average Position`, `Search Volume` and
location are read through a caller-supplied function `read`. Numbers are
exact `real`s.

## Model

| member | source | states |
|---|---|---|
| Tables.Join | automate.py:9 | every merged row pairs a left row and a right row with equal `Terms` |
| Tables.JoinComplete | automate.py:9 | every pair of left and right rows with equal `Terms` appears in the merge |
| Tables.JoinCount | automate.py:9 | a key occurring m times on the left and n times on the right occurs m * n times in the merge |
| Tables.JoinKeys | automate.py:9 | a term is in the merge exactly when it is a key of both inputs |
| Tables.DropDuplicates | automate.py:15 | the result has no two equal rows, keeps every input row's value and is no longer than the input |
| Tables.DropDuplicatesKeepsFirstOrder | automate.py:15 | kept rows are in the order of their first occurrence in the input |
| Tables.DropDuplicatesOfDistinct | automate.py:15 | a table without duplicates is left unchanged |
| Tables.DropDuplicatesIdempotent | automate.py:15 | dropping duplicates twice equals dropping them once |
| Categories.CategorizeCtr | automate.py:11 | `Poor CTR` exactly when CTR <= 2, otherwise `Good CTR` |
| Categories.CategorizePosition | automate.py:12-14 | `Good Position` iff x <= 10, `Medium Position` iff 10 < x <= 26, `Poor Position` iff x > 26 |
| Categories.CategorizePotential | automate.py:23-25 | `Bad Potential` iff x < 5, `Medium Potential` iff 5 <= x <= 10, `Good Potential` iff x > 10 |
| Categories.CategoriesMonotone | automate.py:11-25 | a larger CTR, position or normalised volume never gets a lower-ranked category |
| Categories.BoundaryExamples | automate.py:11-25 | the limit values 2, 10 and 26 (and 5 and 10 for potential) fall on the documented side |
| Categories.LabelsInjective | automate.py:11-25 | distinct categories are stored under distinct labels |
| Potential.FloatDivide | automate.py:22 | column division by a non-zero count is exact; by zero it yields a non-finite value, not an error |
| Potential.NormVolumeAsWritten | automate.py:22 | with a non-zero clinic count the norm volume times the count is volume times rate; zero clinics give a non-finite value: +infinity for a positive volume and rate, not-a-number for zero volume |
| Potential.PotentialOfFloat | automate.py:23-25 | on finite values it is the potential thresholds; not-a-number and +infinity fail both comparisons and are `Good Potential`; -infinity is `Bad Potential` |
| Potential.ZeroClinicsGiveGoodPotential | automate.py:20-25 | at the default rate 0.1119, with zero clinics every non-negative search volume gives a non-finite norm volume and `Good Potential`; with the default 35 clinics zero volume gets `Bad Potential` |
| Potential.NegativeClinicsGiveBadPotential | automate.py:20-25 | a negative clinic count is not refused: with a non-negative rate, any non-negative volume gets a finite norm volume of at most zero and `Bad Potential` |
| Potential.NormVolume | automate.py:20-22 | a clinic count that is not positive is an error; otherwise the value times the count is volume times rate |
| Potential.NormVolumeAgreesWhenValid | automate.py:20-25 | for a positive clinic count the checked and unchecked computations agree in value and category |
| Potential.NormVolumeMonotone | automate.py:22-25 | with positive clinics and non-negative rate, more search volume never lowers the norm volume or its potential |
| DecisionMatrix.NextStepOfLabels | automate.py:33-58 | the chain over the stored label strings returns the default, or the action of a rule whose three category labels are exactly the stored ones |
| DecisionMatrix.FirstMatch | automate.py:33-58 | the action returned is that of the first rule matching the triple (no earlier rule matches it), or the default when no rule matches |
| DecisionMatrix.NextStep | automate.py:33-58 | total over all 18 triples, never empty, and `No Action Required` for every `Bad Potential` triple |
| DecisionMatrix.RulesDisjoint | automate.py:34-57 | the twelve branch conditions are pairwise distinct |
| DecisionMatrix.FirstMatchOfDistinct | automate.py:33-58 | with non-overlapping rules, a rule's condition yields that rule's action wherever it stands |
| DecisionMatrix.FirstMatchOrderFree | automate.py:33-58 | any two orderings of the same non-overlapping rules give the same action |
| DecisionMatrix.TableMatchesChain | automate.py:33-58 | the lookup table equals the chain run on the stored category labels, for all 18 triples |
| DecisionMatrix.TableIsFirstMatch | automate.py:33-58 | the lookup table equals first-match search through the twelve branches in source order |
| DecisionMatrix.NoActionIffUnlisted | automate.py:33-58 | a triple gets `No Action Required` exactly when no branch lists it |
| DecisionMatrix.UnknownLabelNoAction | automate.py:33-58 | text in a category column that is not one of its labels matches no branch |
| DecisionMatrix.NextStepExamples | automate.py:34-58 | (Poor, Medium, Good) gives the main-page keyword insertion; (Good, Good, Medium) gives `No Next Steps`; (Poor, Good, Bad) gives the default |
| Partition.Replace | automate.py:73 | every occurrence of one character is replaced, all others kept, length unchanged |
| Partition.SafeLabel | automate.py:73 | the label has the location's length, no space or slash, underscores where those were and the location's other characters unchanged |
| Partition.SafeLabelIdempotent | automate.py:73 | making a label safe again changes nothing |
| Partition.GroupKeys | automate.py:67 | the group keys are distinct, include every row's location and are all row locations |
| Partition.GroupRows | automate.py:77-79 | a group's output has one row per table row at its location, each with that row's terms and the group's label |
| Partition.GroupRowsComplete | automate.py:77-79 | every row at a location is in that location's output |
| Partition.GroupsFor | automate.py:72-79 | one group per key, in key order, each with that key's rows |
| Partition.Split | automate.py:67 | no two groups share a location, and the groups' locations are exactly the table's locations |
| Partition.RowInExactlyOneGroup | automate.py:67-79 | every row belongs to exactly one group, keyed by its location, and its terms are in that group's output |
| Partition.SplitPreservesRows | automate.py:67-79 | the groups' outputs together are a permutation of the table's rows as (terms, label) |
| Partition.SplitTerms | automate.py:67-79 | the groups' outputs hold exactly the table's terms |
| Partition.WriteGroupFiles | automate.py:72-81 | every group's label names a file, only those names are files, and each group whose label no later group shares (the last group included) has exactly its rows in its file |
| Partition.OneNameOneFile | automate.py:72-81 | when every group's label names one file, it is the only file and holds the last group's rows |
| Partition.SharedLabelLosesRow | automate.py:72-81 | two distinct locations with one label produce one file that lacks one of the two rows |
| Partition.CollidingLabelsLoseRows | automate.py:72-81 | "North Clinic" and "North/Clinic" produce one file and lose one of their terms |
| Partition.WriteGroupFilesMerged | automate.py:72-81 | every group row is in its label's file and every file row comes from a group with that label |
| Partition.MergedFilesKeepEveryRow | automate.py:72-81 | with merged writes every table row is in the file named after its location's label |
| Pipeline.MergeAndCategorize | automate.py:5-15 | the result has no duplicates; every row is a merged row with its categories, and every merged row appears |
| Pipeline.AddNormalizedVolumeAndPotential | automate.py:20-25 | with the defaults 35 clinics and rate 0.1119, refuses a non-positive clinic count; otherwise keeps every row, adds a norm volume whose product with the count is volume times rate, and adds its potential |
| Pipeline.AddNormalizedVolumeAndPotentialAsWritten | automate.py:20-25 | scores every clinic count: keeps every row; a non-zero count gives a finite volume whose product with the count is volume times rate, zero gives a non-finite one; the potential is the comparisons on that value |
| Pipeline.CheckedStageAgreesWhenValid | automate.py:20-25 | for a positive clinic count the checked stage succeeds and gives every row the volume and potential the unchecked stage gives |
| Pipeline.DetermineNextSteps | automate.py:30-60 | keeps every row and adds the lookup-table action for its triple, though computed from the stored labels |
| Pipeline.SplitByClinic | automate.py:65-79 | group locations are distinct and are exactly the locations read from the table's rows; each group holds exactly its location's rows; the groups' outputs together are a permutation of the table's (terms, label) rows |
| Pipeline.MergedTerms | automate.py:9-15 | the terms of the merged stage are exactly the keys common to both inputs |
| Pipeline.RunPipeline | automate.py:87-92 | the four stages with default clinic count and rate; fails exactly for a non-positive clinic count, otherwise no two output groups share a location |
| Pipeline.PipelineKeepsJoinedTerms | automate.py:87-92 | with a positive clinic count the pipeline succeeds, and a term reaches some group exactly when it is a key of both inputs |

## Left out

- Reading and writing CSV files, `print`, `os.makedirs`, `os.path.join`,
  `shutil.make_archive` and `shutil.rmtree` are left out. Stages pass
  tables directly, and the output directory is a map from file name to
  table. The round trip through CSV between stages is taken to be lossless.
- Partition.WriteGroupFiles: the output directory is taken to be new or
  empty when the split starts, so it holds only the files the split
  writes. The code reuses an existing directory without clearing it and
  archives whatever it holds.
- Floating point is left out apart from division by zero. Metrics are exact
  `real`s, so rounding is not modelled, and neither are missing values in
  comparisons or in duplicate detection.
- Column-name suffixing in the merge is left out. The caller's `read`
  function stands for locating `URL CTR`, `Average Position`,
  `Search Volume` and the location among the merged columns. A missing
  column (a `KeyError` in the source) is not modelled.
- Pipeline.SplitByClinic: groups come in order of first appearance, while
  the table library sorts group keys. The contract does not depend on
  order. In the as-written file writing, order only decides which of two
  colliding groups survives.
- Pipeline.AddNormalizedVolumeAndPotential: the pipeline uses the checked
  normalisation, which refuses every clinic count that is not positive.
  The code scores those counts instead: zero gives infinite or
  not-a-number volumes, and with a non-negative rate a negative count gives
  volumes of at most zero that are `Bad Potential`. That behaviour is modelled separately by
  `Pipeline.AddNormalizedVolumeAndPotentialAsWritten` and
  `Potential.NegativeClinicsGiveBadPotential`; the pipeline does not
  reproduce it.
- Groups with a missing location are left out: the library drops them.
  The model takes locations to be non-null strings.
- Join row order is modelled as left rows in order, each with its matches
  in right-table order. No contract depends on it.
- `frontend.py` (upload UI and session state) and `clustering.py` (a
  language-model prompt wrapper) are not part of this model.

## Findings

| source | as written | input that shows it | evidently intended | confidence | as-written member | corrected member |
|---|---|---|---|---|---|---|
| automate.py:20-25 | `num_clinics` is never checked. Column division by zero gives an infinity or not-a-number, and not-a-number fails both comparisons, so it falls into `Good Potential`. With a non-negative rate, a negative count gives volumes of at most zero, all `Bad Potential` | `num_clinics = 0`, `Search Volume = 0`: norm volume is not-a-number and the category is `Good Potential`; with 35 clinics it is `Bad Potential` | a clinic count that is not positive is refused before any row is scored | medium, not executed | Potential.ZeroClinicsGiveGoodPotential | Potential.NormVolume |
| automate.py:72-81 | each group is written to `<safe label>_file.csv`, and a later group with the same safe label overwrites the earlier file | locations `North Clinic` (term `implants`) and `North/Clinic` (term `whitening`) both become `North_Clinic`; the archive holds one file with only one of the two terms | every row of the table lands in the archive | medium, not executed | Partition.CollidingLabelsLoseRows | Partition.MergedFilesKeepEveryRow |

`Potential.NormVolume` is the corrected normalisation: it rejects a
non-positive clinic count. `Potential.NormVolumeAgreesWhenValid` proves it
equals the code for every positive count, and the pipeline uses it.
`Partition.WriteGroupFilesMerged` is the corrected writer: a file whose
name is already taken gets the new rows appended. The pipeline's
`Pipeline.SplitByClinic` returns the groups themselves, so those keep
every row (`Partition.SplitPreservesRows`).

=== FILE: categories.dfy ===
/** The three threshold categorisers: CTR, average position and potential,
    and the text labels under which each category is stored in a table. */
module Categories {

  datatype CtrCategory = PoorCtr | GoodCtr
  datatype PositionCategory = GoodPosition | MediumPosition | PoorPosition
  datatype PotentialCategory = BadPotential | MediumPotential | GoodPotential

  /** The CTR threshold: a URL CTR at or below this many percent is poor. */
  const CtrThreshold: real := 2.0
  /** Average positions at or below this are good. */
  const GoodPositionLimit: real := 10.0
  /** Average positions above the good limit and at or below this are medium. */
  const MediumPositionLimit: real := 26.0
  /** Normalised volumes below this have bad potential. */
  const BadPotentialLimit: real := 5.0
  /** Normalised volumes from the bad limit up to and including this are medium. */
  const MediumPotentialLimit: real := 10.0

  function CtrLabel(c: CtrCategory): string {
    match c
    case PoorCtr => "Poor CTR"
    case GoodCtr => "Good CTR"
  }

  function PositionLabel(p: PositionCategory): string {
    match p
    case GoodPosition => "Good Position"
    case MediumPosition => "Medium Position"
    case PoorPosition => "Poor Position"
  }

  function PotentialLabel(v: PotentialCategory): string {
    match v
    case BadPotential => "Bad Potential"
    case MediumPotential => "Medium Potential"
    case GoodPotential => "Good Potential"
  }

  /** Labels are distinct, so a stored label identifies its category. */
  lemma LabelsInjective(c1: CtrCategory, c2: CtrCategory, p1: PositionCategory, p2: PositionCategory,
                        v1: PotentialCategory, v2: PotentialCategory)
    ensures CtrLabel(c1) == CtrLabel(c2) ==> c1 == c2
    ensures PositionLabel(p1) == PositionLabel(p2) ==> p1 == p2
    ensures PotentialLabel(v1) == PotentialLabel(v2) ==> v1 == v2
  {}

  /** Ordinal of a CTR category, worse first. */
  function CtrRank(c: CtrCategory): nat {
    match c
    case PoorCtr => 0
    case GoodCtr => 1
  }

  /** Ordinal of a position category, best (lowest rank number) first. */
  function PositionRank(p: PositionCategory): nat {
    match p
    case GoodPosition => 0
    case MediumPosition => 1
    case PoorPosition => 2
  }

  /** Ordinal of a potential category, worst first. */
  function PotentialRank(v: PotentialCategory): nat {
    match v
    case BadPotential => 0
    case MediumPotential => 1
    case GoodPotential => 2
  }

  /** CTR category of a URL CTR value (in percent). */
  function CategorizeCtr(x: real): (c: CtrCategory)
    ensures c == PoorCtr <==> x <= CtrThreshold
    ensures c == GoodCtr <==> x > CtrThreshold
  {
    if x <= CtrThreshold then PoorCtr else GoodCtr
  }

  /** Position category of an average search position. */
  function CategorizePosition(x: real): (p: PositionCategory)
    ensures p == GoodPosition <==> x <= GoodPositionLimit
    ensures p == MediumPosition <==> GoodPositionLimit < x <= MediumPositionLimit
    ensures p == PoorPosition <==> x > MediumPositionLimit
  {
    if x <= GoodPositionLimit then GoodPosition
    else if x <= MediumPositionLimit then MediumPosition
    else PoorPosition
  }

  /** Potential category of a normalised search volume. */
  function CategorizePotential(x: real): (v: PotentialCategory)
    ensures v == BadPotential <==> x < BadPotentialLimit
    ensures v == MediumPotential <==> BadPotentialLimit <= x <= MediumPotentialLimit
    ensures v == GoodPotential <==> x > MediumPotentialLimit
  {
    if x < BadPotentialLimit then BadPotential
    else if x <= MediumPotentialLimit then MediumPotential
    else GoodPotential
  }

  /** Each categoriser is monotone: a larger value never gets a lower category. */
  lemma CategoriesMonotone(x: real, y: real)
    requires x <= y
    ensures CtrRank(CategorizeCtr(x)) <= CtrRank(CategorizeCtr(y))
    ensures PositionRank(CategorizePosition(x)) <= PositionRank(CategorizePosition(y))
    ensures PotentialRank(CategorizePotential(x)) <= PotentialRank(CategorizePotential(y))
  {}

  /** The boundary values: each limit belongs to the lower category, except
      the bad-potential limit, which belongs to the medium one. */
  lemma BoundaryExamples()
    ensures CategorizeCtr(2.0) == PoorCtr && CategorizeCtr(2.0001) == GoodCtr
    ensures CategorizePosition(10.0) == GoodPosition && CategorizePosition(10.0001) == MediumPosition
    ensures CategorizePosition(26.0) == MediumPosition && CategorizePosition(26.0001) == PoorPosition
    ensures CategorizePotential(4.999) == BadPotential && CategorizePotential(5.0) == MediumPotential
    ensures CategorizePotential(10.0) == MediumPotential && CategorizePotential(10.001) == GoodPotential
  {}
}

=== FILE: decision.dfy ===
/** The decision matrix that turns a row's three categories into its
    `Next Steps` action. */
module DecisionMatrix {
  import opened Categories

  /** The action of every combination no rule lists. */
  const NoActionRequired: string := "No Action Required"

  datatype Triple = Triple(ctr: CtrCategory, position: PositionCategory, potential: PotentialCategory)

  /** One explicit branch: the combination it matches and the action it gives. */
  datatype Rule = Rule(when: Triple, action: string)

  /** The twelve explicit branches, in the order the chain tests them. */
  const Rules: seq<Rule> := [
    Rule(Triple(PoorCtr, MediumPosition, GoodPotential), "Keyword Insertion on main page to improve Position"),
    Rule(Triple(GoodCtr, MediumPosition, GoodPotential), "Keyword Insertion if no"),
    Rule(Triple(PoorCtr, PoorPosition, GoodPotential), "Keyword Insertion if possible"),
    Rule(Triple(GoodCtr, PoorPosition, GoodPotential), "Create New Pages"),
    Rule(Triple(GoodCtr, GoodPosition, GoodPotential), "Create New Blogs"),
    Rule(Triple(PoorCtr, GoodPosition, GoodPotential), "Add Meta Title"),
    Rule(Triple(GoodCtr, GoodPosition, MediumPotential), "No Next Steps"),
    Rule(Triple(PoorCtr, GoodPosition, MediumPotential), "Create new pages"),
    Rule(Triple(GoodCtr, MediumPosition, MediumPotential), "Create new pages"),
    Rule(Triple(PoorCtr, MediumPosition, MediumPotential), "Add in Meta description"),
    Rule(Triple(GoodCtr, PoorPosition, MediumPotential), "Add New Pages"),
    Rule(Triple(PoorCtr, PoorPosition, MediumPotential), "Create new pages")
  ]

  /** The branch chain as the row function runs it: it compares the text
      stored in the three category columns, so any text that is not one of
      the category labels matches no branch. Every action other than the
      default is that of a rule whose category labels are the stored ones. */
  function NextStepOfLabels(ctr: string, position: string, potential: string): (a: string)
    ensures a == NoActionRequired
         || exists i :: 0 <= i < |Rules| && Rules[i].action == a && HasLabels(Rules[i].when, ctr, position, potential)
  {
    if ctr == "Poor CTR" && position == "Medium Position" && potential == "Good Potential" then
      assert HasLabels(Rules[0].when, ctr, position, potential);
      "Keyword Insertion on main page to improve Position"
    else if ctr == "Good CTR" && position == "Medium Position" && potential == "Good Potential" then
      assert HasLabels(Rules[1].when, ctr, position, potential);
      "Keyword Insertion if no"
    else if ctr == "Poor CTR" && position == "Poor Position" && potential == "Good Potential" then
      assert HasLabels(Rules[2].when, ctr, position, potential);
      "Keyword Insertion if possible"
    else if ctr == "Good CTR" && position == "Poor Position" && potential == "Good Potential" then
      assert HasLabels(Rules[3].when, ctr, position, potential);
      "Create New Pages"
    else if ctr == "Good CTR" && position == "Good Position" && potential == "Good Potential" then
      assert HasLabels(Rules[4].when, ctr, position, potential);
      "Create New Blogs"
    else if ctr == "Poor CTR" && position == "Good Position" && potential == "Good Potential" then
      assert HasLabels(Rules[5].when, ctr, position, potential);
      "Add Meta Title"
    else if ctr == "Good CTR" && position == "Good Position" && potential == "Medium Potential" then
      assert HasLabels(Rules[6].when, ctr, position, potential);
      "No Next Steps"
    else if ctr == "Poor CTR" && position == "Good Position" && potential == "Medium Potential" then
      assert HasLabels(Rules[7].when, ctr, position, potential);
      "Create new pages"
    else if ctr == "Good CTR" && position == "Medium Position" && potential == "Medium Potential" then
      assert HasLabels(Rules[8].when, ctr, position, potential);
      "Create new pages"
    else if ctr == "Poor CTR" && position == "Medium Position" && potential == "Medium Potential" then
      assert HasLabels(Rules[9].when, ctr, position, potential);
      "Add in Meta description"
    else if ctr == "Good CTR" && position == "Poor Position" && potential == "Medium Potential" then
      assert HasLabels(Rules[10].when, ctr, position, potential);
      "Add New Pages"
    else if ctr == "Poor CTR" && position == "Poor Position" && potential == "Medium Potential" then
      assert HasLabels(Rules[11].when, ctr, position, potential);
      "Create new pages"
    else
      NoActionRequired
  }

  /** The three stored labels are those of the categories of `t`. */
  predicate HasLabels(t: Triple, ctr: string, position: string, potential: string) {
    ctr == CtrLabel(t.ctr) && position == PositionLabel(t.position) && potential == PotentialLabel(t.potential)
  }

  /** The action of the first rule that matches `t`, or the default. */
  function FirstMatch(rules: seq<Rule>, t: Triple): (a: string)
    ensures (exists i :: 0 <= i < |rules| && rules[i].when == t && rules[i].action == a
                         && forall j :: 0 <= j < i ==> rules[j].when != t)
         || ((forall i :: 0 <= i < |rules| ==> rules[i].when != t) && a == NoActionRequired)
  {
    if |rules| == 0 then NoActionRequired
    else if rules[0].when == t then rules[0].action
    else
      var a := FirstMatch(rules[1..], t);
      assert forall i :: 1 <= i < |rules| ==> rules[i] == rules[1..][i - 1];
      a
  }

  /** The decision matrix as a lookup table: one entry for each of the
      2 * 3 * 3 category combinations. */
  function NextStep(t: Triple): (a: string)
    ensures a != ""
    ensures t.potential == BadPotential ==> a == NoActionRequired
  {
    match t
    case Triple(PoorCtr, GoodPosition, GoodPotential) => "Add Meta Title"
    case Triple(PoorCtr, GoodPosition, MediumPotential) => "Create new pages"
    case Triple(PoorCtr, GoodPosition, BadPotential) => NoActionRequired
    case Triple(PoorCtr, MediumPosition, GoodPotential) => "Keyword Insertion on main page to improve Position"
    case Triple(PoorCtr, MediumPosition, MediumPotential) => "Add in Meta description"
    case Triple(PoorCtr, MediumPosition, BadPotential) => NoActionRequired
    case Triple(PoorCtr, PoorPosition, GoodPotential) => "Keyword Insertion if possible"
    case Triple(PoorCtr, PoorPosition, MediumPotential) => "Create new pages"
    case Triple(PoorCtr, PoorPosition, BadPotential) => NoActionRequired
    case Triple(GoodCtr, GoodPosition, GoodPotential) => "Create New Blogs"
    case Triple(GoodCtr, GoodPosition, MediumPotential) => "No Next Steps"
    case Triple(GoodCtr, GoodPosition, BadPotential) => NoActionRequired
    case Triple(GoodCtr, MediumPosition, GoodPotential) => "Keyword Insertion if no"
    case Triple(GoodCtr, MediumPosition, MediumPotential) => "Create new pages"
    case Triple(GoodCtr, MediumPosition, BadPotential) => NoActionRequired
    case Triple(GoodCtr, PoorPosition, GoodPotential) => "Create New Pages"
    case Triple(GoodCtr, PoorPosition, MediumPotential) => "Add New Pages"
    case Triple(GoodCtr, PoorPosition, BadPotential) => NoActionRequired
  }

  /** No two rules match the same combination. */
  predicate DistinctConditions(rules: seq<Rule>) {
    forall i, j :: 0 <= i < j < |rules| ==> rules[i].when != rules[j].when
  }

  /** The twelve branch conditions are pairwise disjoint. */
  lemma RulesDisjoint()
    ensures |Rules| == 12
    ensures DistinctConditions(Rules)
  {
    forall i, j | 0 <= i < j < |Rules|
      ensures Rules[i].when != Rules[j].when
    {
      RuleIndexOfRule(i);
      RuleIndexOfRule(j);
    }
  }

  /** Each rule's condition is listed, at that rule's own index. */
  lemma RuleIndexOfRule(i: int)
    requires 0 <= i < |Rules|
    ensures Rules[i].when.potential != BadPotential && RuleIndex(Rules[i].when) == i
  {}

  /** In a rule list without overlapping conditions, the first match for a
      rule's condition is that rule, wherever it stands in the list. */
  lemma {:induction false} FirstMatchOfDistinct(rules: seq<Rule>, i: int)
    requires DistinctConditions(rules)
    requires 0 <= i < |rules|
    ensures FirstMatch(rules, rules[i].when) == rules[i].action
    decreases |rules|
  {
    if i > 0 {
      assert rules[0].when != rules[i].when;
      var tail := rules[1..];
      assert tail[i - 1] == rules[i];
      assert DistinctConditions(tail) by {
        forall a, b | 0 <= a < b < |tail|
          ensures tail[a].when != tail[b].when
        {
          assert tail[a] == rules[a + 1] && tail[b] == rules[b + 1];
        }
      }
      FirstMatchOfDistinct(tail, i - 1);
    }
  }

  /** Order does not matter: two orderings of the same non-overlapping rules
      give the same action for every combination. */
  lemma FirstMatchOrderFree(rs1: seq<Rule>, rs2: seq<Rule>, t: Triple)
    requires DistinctConditions(rs1) && DistinctConditions(rs2)
    requires forall r :: r in rs1 <==> r in rs2
    ensures FirstMatch(rs1, t) == FirstMatch(rs2, t)
  {
    if i :| 0 <= i < |rs1| && rs1[i].when == t {
      assert rs1[i] in rs2;
      var j :| 0 <= j < |rs2| && rs2[j] == rs1[i];
      FirstMatchOfDistinct(rs1, i);
      FirstMatchOfDistinct(rs2, j);
    } else {
      forall j | 0 <= j < |rs2|
        ensures rs2[j].when != t
      {
        assert rs2[j] in rs1;
      }
    }
  }

  /** The lookup table agrees with the chain run on the stored labels, for
      every one of the 18 combinations. */
  lemma TableMatchesChain(t: Triple)
    ensures NextStep(t) == NextStepOfLabels(CtrLabel(t.ctr), PositionLabel(t.position), PotentialLabel(t.potential))
  {
    LabelsInjective(PoorCtr, GoodCtr, GoodPosition, MediumPosition, BadPotential, MediumPotential);
    LabelsInjective(PoorCtr, GoodCtr, GoodPosition, PoorPosition, BadPotential, GoodPotential);
    LabelsInjective(PoorCtr, GoodCtr, MediumPosition, PoorPosition, MediumPotential, GoodPotential);
  }

  /** The index of the rule listing `t`, for the twelve listed combinations. */
  function RuleIndex(t: Triple): (i: int)
    requires t.potential != BadPotential
    ensures 0 <= i < |Rules| && Rules[i].when == t
  {
    match t
    case Triple(PoorCtr, MediumPosition, GoodPotential) => 0
    case Triple(GoodCtr, MediumPosition, GoodPotential) => 1
    case Triple(PoorCtr, PoorPosition, GoodPotential) => 2
    case Triple(GoodCtr, PoorPosition, GoodPotential) => 3
    case Triple(GoodCtr, GoodPosition, GoodPotential) => 4
    case Triple(PoorCtr, GoodPosition, GoodPotential) => 5
    case Triple(GoodCtr, GoodPosition, MediumPotential) => 6
    case Triple(PoorCtr, GoodPosition, MediumPotential) => 7
    case Triple(GoodCtr, MediumPosition, MediumPotential) => 8
    case Triple(PoorCtr, MediumPosition, MediumPotential) => 9
    case Triple(GoodCtr, PoorPosition, MediumPotential) => 10
    case Triple(PoorCtr, PoorPosition, MediumPotential) => 11
  }

  /** No rule lists a bad-potential combination. */
  lemma BadPotentialUnlisted(t: Triple)
    requires t.potential == BadPotential
    ensures FirstMatch(Rules, t) == NoActionRequired
  {
    forall i | 0 <= i < |Rules|
      ensures Rules[i].when != t
    {
      RuleIndexOfRule(i);
    }
  }

  /** Every other combination is listed, with the table's action. */
  lemma ListedRule(t: Triple)
    requires t.potential != BadPotential
    ensures Rules[RuleIndex(t)].action == NextStep(t)
  {}

  /** The lookup table is the first-match search through the rule list. */
  lemma TableIsFirstMatch(t: Triple)
    ensures NextStep(t) == FirstMatch(Rules, t)
  {
    if t.potential == BadPotential {
      BadPotentialUnlisted(t);
    } else {
      RulesDisjoint();
      FirstMatchOfDistinct(Rules, RuleIndex(t));
      ListedRule(t);
    }
  }

  /** No listed action is the default text. */
  lemma ListedActionsNotDefault()
    ensures forall i :: 0 <= i < |Rules| ==> Rules[i].action != NoActionRequired
  {
    forall i | 0 <= i < |Rules|
      ensures Rules[i].action != NoActionRequired
    {
      assert |Rules[i].action| != |NoActionRequired|;
    }
  }

  /** A combination gets the default action exactly when no rule lists it. */
  lemma NoActionIffUnlisted(t: Triple)
    ensures NextStep(t) == NoActionRequired <==> forall i :: 0 <= i < |Rules| ==> Rules[i].when != t
  {
    TableIsFirstMatch(t);
    var a := FirstMatch(Rules, t);
    if i :| 0 <= i < |Rules| && Rules[i].when == t {
      RulesDisjoint();
      FirstMatchOfDistinct(Rules, i);
      ListedActionsNotDefault();
      assert a != NoActionRequired;
    }
  }

  /** Text that is not a label of its column matches no branch. */
  lemma UnknownLabelNoAction(ctr: string, position: string, potential: string)
    requires (forall c :: ctr != CtrLabel(c))
          || (forall p :: position != PositionLabel(p))
          || (forall v :: potential != PotentialLabel(v))
    ensures NextStepOfLabels(ctr, position, potential) == NoActionRequired
  {
    if forall c :: ctr != CtrLabel(c) {
      assert ctr != CtrLabel(PoorCtr) && ctr != CtrLabel(GoodCtr);
    } else if forall p :: position != PositionLabel(p) {
      assert position != PositionLabel(GoodPosition) && position != PositionLabel(MediumPosition)
        && position != PositionLabel(PoorPosition);
    } else {
      assert potential != PotentialLabel(MediumPotential) && potential != PotentialLabel(GoodPotential);
    }
  }

  /** Examples of the table's entries. */
  lemma NextStepExamples()
    ensures NextStep(Triple(PoorCtr, MediumPosition, GoodPotential)) == "Keyword Insertion on main page to improve Position"
    ensures NextStep(Triple(GoodCtr, GoodPosition, MediumPotential)) == "No Next Steps"
    ensures NextStep(Triple(PoorCtr, GoodPosition, BadPotential)) == NoActionRequired
  {}
}

=== FILE: partition.dfy ===
/** Splitting the final table by clinic location: one group per distinct
    `Clinic Location - Landing pages` value, each group reduced to its terms
    and a file-safe `cluster` label, and the per-group files written. */
module Partition {
  import opened Tables

  /** The two columns of a final-table row that the split reads. */
  datatype LocatedTerm = LocatedTerm(terms: string, location: string)

  /** A row of a group's output table: `Terms` and `cluster`. */
  datatype ClusterRow = ClusterRow(terms: string, cluster: string)

  /** One group: the location it was keyed by and its output rows. */
  datatype Group = Group(location: string, rows: seq<ClusterRow>)

  /** Every occurrence of character `from` replaced by `to`. */
  function Replace(s: string, from: char, to: char): (r: string)
    ensures |r| == |s|
    ensures forall i :: 0 <= i < |s| ==> r[i] == if s[i] == from then to else s[i]
  {
    if |s| == 0 then ""
    else [if s[0] == from then to else s[0]] + Replace(s[1..], from, to)
  }

  /** The location with spaces and then slashes replaced by underscores. */
  function SafeLabel(location: string): (safe: string)
    ensures |safe| == |location|
    ensures forall i :: 0 <= i < |safe| ==> safe[i] != ' ' && safe[i] != '/'
    ensures forall i :: 0 <= i < |safe| ==>
      if location[i] == ' ' || location[i] == '/' then safe[i] == '_' else safe[i] == location[i]
  {
    Replace(Replace(location, ' ', '_'), '/', '_')
  }

  /** A label is already safe: making it safe again changes nothing. */
  lemma SafeLabelIdempotent(location: string)
    ensures SafeLabel(SafeLabel(location)) == SafeLabel(location)
  {}

  /** The output row of a table row: its terms under its location's label. */
  function ClusterRowOf(row: LocatedTerm): ClusterRow {
    ClusterRow(row.terms, SafeLabel(row.location))
  }

  /** The cluster rows expected from a table, one per row in order. */
  function ClusterRowsOf(rows: seq<LocatedTerm>): (out: seq<ClusterRow>)
    ensures |out| == |rows|
    ensures forall i :: 0 <= i < |rows| ==> out[i] == ClusterRowOf(rows[i])
  {
    if |rows| == 0 then [] else [ClusterRowOf(rows[0])] + ClusterRowsOf(rows[1..])
  }

  /** The distinct locations of a table, in order of first appearance. */
  function GroupKeys(rows: seq<LocatedTerm>): (keys: seq<string>)
    ensures NoDuplicates(keys)
    ensures forall i :: 0 <= i < |rows| ==> rows[i].location in keys
    ensures forall k :: 0 <= k < |keys| ==> exists i :: 0 <= i < |rows| && rows[i].location == keys[k]
  {
    var column := seq(|rows|, i requires 0 <= i < |rows| => rows[i].location);
    var keys := DropDuplicates(column);
    assert forall k :: 0 <= k < |keys| ==> exists i :: 0 <= i < |rows| && rows[i].location == keys[k] by {
      forall k | 0 <= k < |keys|
        ensures exists i :: 0 <= i < |rows| && rows[i].location == keys[k]
      {
        var i :| 0 <= i < |column| && column[i] == keys[k];
        assert rows[i].location == keys[k];
      }
    }
    forall i | 0 <= i < |rows|
      ensures rows[i].location in keys
    {
      assert column[i] in keys;
    }
    keys
  }

  /** Number of rows at a location. */
  function CountAt(rows: seq<LocatedTerm>, location: string): nat {
    if |rows| == 0 then 0 else (if rows[0].location == location then 1 else 0) + CountAt(rows[1..], location)
  }

  /** `r` is the cluster row of some row of `rows` at `location`. */
  ghost predicate FromRowAt(rows: seq<LocatedTerm>, location: string, r: ClusterRow) {
    exists i :: 0 <= i < |rows| && rows[i].location == location && r == ClusterRowOf(rows[i])
  }

  /** The output table of one location: the terms of its rows, in order,
      each with the location's label. */
  function GroupRows(rows: seq<LocatedTerm>, location: string): (out: seq<ClusterRow>)
    ensures |out| == CountAt(rows, location)
    ensures forall j :: 0 <= j < |out| ==> out[j].cluster == SafeLabel(location)
    ensures forall j :: 0 <= j < |out| ==> FromRowAt(rows, location, out[j])
  {
    if |rows| == 0 then []
    else
      var head := if rows[0].location == location then [ClusterRowOf(rows[0])] else [];
      var tail := GroupRows(rows[1..], location);
      assert forall r :: FromRowAt(rows[1..], location, r) ==> FromRowAt(rows, location, r) by {
        forall r | FromRowAt(rows[1..], location, r)
          ensures FromRowAt(rows, location, r)
        {
          var i :| 0 <= i < |rows[1..]| && rows[1..][i].location == location && r == ClusterRowOf(rows[1..][i]);
          assert rows[i + 1] == rows[1..][i];
        }
      }
      assert head != [] ==> FromRowAt(rows, location, head[0]) by {
        if head != [] {
          assert rows[0].location == location && head[0] == ClusterRowOf(rows[0]);
        }
      }
      head + tail
  }

  /** Every row at a location is in that location's output table. */
  lemma {:induction false} GroupRowsComplete(rows: seq<LocatedTerm>, i: int)
    requires 0 <= i < |rows|
    ensures ClusterRowOf(rows[i]) in GroupRows(rows, rows[i].location)
    decreases |rows|
  {
    if i > 0 {
      assert rows[1..][i - 1] == rows[i];
      GroupRowsComplete(rows[1..], i - 1);
    }
  }

  /** One group per key, in key order. */
  function GroupsFor(rows: seq<LocatedTerm>, keys: seq<string>): (groups: seq<Group>)
    ensures |groups| == |keys|
    ensures forall g :: 0 <= g < |keys| ==> groups[g] == Group(keys[g], GroupRows(rows, keys[g]))
  {
    if |keys| == 0 then [] else [Group(keys[0], GroupRows(rows, keys[0]))] + GroupsFor(rows, keys[1..])
  }

  /** The split: one group per distinct location, a group for every location
      of the table and none for any other. */
  function Split(rows: seq<LocatedTerm>): (groups: seq<Group>)
    ensures forall g1, g2 :: 0 <= g1 < g2 < |groups| ==> groups[g1].location != groups[g2].location
    ensures Locations(groups) == set i | 0 <= i < |rows| :: rows[i].location
  {
    LocationsOfGroupsFor(rows, GroupKeys(rows));
    GroupKeysAreLocations(rows);
    GroupsFor(rows, GroupKeys(rows))
  }

  /** The group keys are exactly the locations of the table. */
  lemma GroupKeysAreLocations(rows: seq<LocatedTerm>)
    ensures (set k | k in GroupKeys(rows)) == set i | 0 <= i < |rows| :: rows[i].location
  {
    var keys := GroupKeys(rows);
    forall x | x in keys
      ensures x in set i | 0 <= i < |rows| :: rows[i].location
    {
      var g :| 0 <= g < |keys| && keys[g] == x;
      var i :| 0 <= i < |rows| && rows[i].location == keys[g];
    }
  }

  /** Each group of the split holds exactly its location's rows. */
  lemma SplitGroupsHoldTheirRows(rows: seq<LocatedTerm>)
    ensures forall g :: 0 <= g < |Split(rows)| ==> Split(rows)[g].rows == GroupRows(rows, Split(rows)[g].location)
  {
    var keys := GroupKeys(rows);
    assert Split(rows) == GroupsFor(rows, keys);
  }

  /** The groups made for a list of keys are keyed by exactly those keys. */
  lemma {:induction false} LocationsOfGroupsFor(rows: seq<LocatedTerm>, keys: seq<string>)
    ensures Locations(GroupsFor(rows, keys)) == set k | k in keys
    decreases |keys|
  {
    if |keys| > 0 {
      LocationsOfGroupsFor(rows, keys[1..]);
      assert GroupsFor(rows, keys) == [Group(keys[0], GroupRows(rows, keys[0]))] + GroupsFor(rows, keys[1..]);
      assert (set k | k in keys) == {keys[0]} + set k | k in keys[1..];
    }
  }

  /** The locations the groups are keyed by. */
  function Locations(groups: seq<Group>): set<string> {
    set grp | grp in groups :: grp.location
  }

  /** Every row belongs to exactly one group, the one keyed by its location,
      and its terms appear in that group's output under the group's label. */
  lemma RowInExactlyOneGroup(rows: seq<LocatedTerm>, i: int)
    requires 0 <= i < |rows|
    ensures var groups := Split(rows);
            && (exists g :: 0 <= g < |groups| && groups[g].location == rows[i].location)
            && (forall g1, g2 :: 0 <= g1 < g2 < |groups| ==> groups[g1].location != groups[g2].location)
            && (forall g :: 0 <= g < |groups| && groups[g].location == rows[i].location ==>
                  ClusterRowOf(rows[i]) in groups[g].rows)
  {
    var groups := Split(rows);
    assert rows[i].location in Locations(groups);
    var grp :| grp in groups && grp.location == rows[i].location;
    var g :| 0 <= g < |groups| && groups[g] == grp;
    GroupRowsComplete(rows, i);
  }

  /** All output rows of a list of groups, group after group. */
  function AllClusterRows(groups: seq<Group>): seq<ClusterRow> {
    if |groups| == 0 then [] else groups[0].rows + AllClusterRows(groups[1..])
  }

  lemma {:induction false} GroupsForEmpty(keys: seq<string>)
    ensures AllClusterRows(GroupsFor([], keys)) == []
    decreases |keys|
  {
    if |keys| > 0 {
      GroupsForEmpty(keys[1..]);
    }
  }

  /** Adding a row in front of the table adds its cluster row once to the
      group output when its location is one of the (distinct) keys. */
  lemma {:induction false} GroupsForCons(x: LocatedTerm, rest: seq<LocatedTerm>, keys: seq<string>)
    requires NoDuplicates(keys)
    ensures multiset(AllClusterRows(GroupsFor([x] + rest, keys)))
         == multiset(AllClusterRows(GroupsFor(rest, keys)))
            + (if x.location in keys then multiset{ClusterRowOf(x)} else multiset{})
    decreases |keys|
  {
    if |keys| > 0 {
      var tailKeys := keys[1..];
      assert NoDuplicates(tailKeys) by {
        forall a, b | 0 <= a < b < |tailKeys|
          ensures tailKeys[a] != tailKeys[b]
        {
          assert tailKeys[a] == keys[a + 1] && tailKeys[b] == keys[b + 1];
        }
      }
      GroupsForCons(x, rest, tailKeys);
      assert ([x] + rest)[1..] == rest;
      assert x.location in keys <==> x.location == keys[0] || x.location in tailKeys;
      if x.location == keys[0] {
        assert x.location !in tailKeys by {
          forall b | 0 <= b < |tailKeys|
            ensures tailKeys[b] != keys[0]
          {
            assert tailKeys[b] == keys[b + 1];
          }
        }
      }
    }
  }

  /** With distinct keys covering every row's location, the groups' output
      holds each row's cluster row exactly once: nothing lost, nothing
      repeated. */
  lemma {:induction false} GroupsForPreservesRows(rows: seq<LocatedTerm>, keys: seq<string>)
    requires NoDuplicates(keys)
    requires forall i :: 0 <= i < |rows| ==> rows[i].location in keys
    ensures multiset(AllClusterRows(GroupsFor(rows, keys))) == multiset(ClusterRowsOf(rows))
    decreases |rows|
  {
    if |rows| == 0 {
      GroupsForEmpty(keys);
    } else {
      var rest := rows[1..];
      assert rows == [rows[0]] + rest;
      assert forall i :: 0 <= i < |rest| ==> rest[i] == rows[i + 1];
      GroupsForPreservesRows(rest, keys);
      GroupsForCons(rows[0], rest, keys);
      assert ClusterRowsOf(rows) == [ClusterRowOf(rows[0])] + ClusterRowsOf(rest);
    }
  }

  /** The split loses and repeats no row: the groups' outputs together are
      a permutation of the table's rows, each as terms plus label. */
  lemma SplitPreservesRows(rows: seq<LocatedTerm>)
    ensures multiset(AllClusterRows(Split(rows))) == multiset(ClusterRowsOf(rows))
  {
    GroupsForPreservesRows(rows, GroupKeys(rows));
  }

  /** The terms that appear in the groups' outputs. */
  function OutputTerms(groups: seq<Group>): set<string> {
    set r | r in AllClusterRows(groups) :: r.terms
  }

  /** The groups' outputs hold exactly the terms of the table. */
  lemma SplitTerms(rows: seq<LocatedTerm>)
    ensures OutputTerms(Split(rows)) == set k | 0 <= k < |rows| :: rows[k].terms
  {
    OutputTermsAreTableTerms(rows);
    TableTermsAreOutputTerms(rows);
  }

  /** Every term in the groups' outputs is a term of the table. */
  lemma OutputTermsAreTableTerms(rows: seq<LocatedTerm>)
    ensures OutputTerms(Split(rows)) <= set k | 0 <= k < |rows| :: rows[k].terms
  {
    SplitPreservesRows(rows);
    PermutedTermsAreTableTerms(AllClusterRows(Split(rows)), ClusterRowsOf(rows), rows);
  }

  /** Rows that are a permutation of a table's cluster rows carry only the
      table's terms. */
  lemma PermutedTermsAreTableTerms(out: seq<ClusterRow>, expected: seq<ClusterRow>, rows: seq<LocatedTerm>)
    requires |expected| == |rows|
    requires forall i :: 0 <= i < |rows| ==> expected[i].terms == rows[i].terms
    requires multiset(out) == multiset(expected)
    ensures (set r | r in out :: r.terms) <= set k | 0 <= k < |rows| :: rows[k].terms
  {
    forall r | r in out
      ensures r.terms in set k | 0 <= k < |rows| :: rows[k].terms
    {
      assert r in multiset(expected);
      var k :| 0 <= k < |expected| && expected[k] == r;
    }
  }

  /** Every term of the table is in the groups' outputs. */
  lemma TableTermsAreOutputTerms(rows: seq<LocatedTerm>)
    ensures (set k | 0 <= k < |rows| :: rows[k].terms) <= OutputTerms(Split(rows))
  {
    var out := AllClusterRows(Split(rows));
    var expected := ClusterRowsOf(rows);
    SplitPreservesRows(rows);
    forall k | 0 <= k < |rows|
      ensures rows[k].terms in OutputTerms(Split(rows))
    {
      assert expected[k] in multiset(out);
    }
  }

  /** The name of the file a group's output table is written to. */
  function FileName(cluster: string): string {
    cluster + "_file.csv"
  }

  /** Distinct labels name distinct files. */
  lemma FileNameInjective(x: string, y: string)
    requires FileName(x) == FileName(y)
    ensures x == y
  {
    assert |x| == |y|;
    forall i | 0 <= i < |x|
      ensures x[i] == y[i]
    {
      assert x[i] == FileName(x)[i] && y[i] == FileName(y)[i];
    }
  }

  /** No group after the `g`th has the same label. */
  predicate LastWithLabel(groups: seq<Group>, g: int)
    requires 0 <= g < |groups|
  {
    forall h :: g < h < |groups| ==> SafeLabel(groups[h].location) != SafeLabel(groups[g].location)
  }

  /** The output directory after writing every group's table in group order:
      a later group whose label equals an earlier one's replaces that file,
      and a group whose label no later group shares keeps its rows. */
  function WriteGroupFiles(groups: seq<Group>): (files: map<string, seq<ClusterRow>>)
    ensures forall grp :: grp in groups ==> FileName(SafeLabel(grp.location)) in files
    ensures forall n :: n in files ==> exists grp :: grp in groups && FileName(SafeLabel(grp.location)) == n
    ensures |groups| > 0 ==> files[FileName(SafeLabel(groups[|groups| - 1].location))] == groups[|groups| - 1].rows
    ensures forall g :: 0 <= g < |groups| && LastWithLabel(groups, g) ==>
      files[FileName(SafeLabel(groups[g].location))] == groups[g].rows
  {
    if |groups| == 0 then map[]
    else
      var before := WriteGroupFiles(groups[..|groups| - 1]);
      WriteOneMoreGroup(groups, groups[..|groups| - 1], before);
      before[FileName(SafeLabel(groups[|groups| - 1].location)) := groups[|groups| - 1].rows]
  }

  /** Writing the last group's file over the files of the groups before it
      gives a file for every group, and only those, and keeps the rows of
      every group whose label no later group shares. */
  lemma WriteOneMoreGroup(groups: seq<Group>, init: seq<Group>, before: map<string, seq<ClusterRow>>)
    requires |groups| > 0 && init == groups[..|groups| - 1]
    requires forall grp :: grp in init ==> FileName(SafeLabel(grp.location)) in before
    requires forall n :: n in before ==> exists grp :: grp in init && FileName(SafeLabel(grp.location)) == n
    requires forall g :: 0 <= g < |init| && LastWithLabel(init, g) ==>
      before[FileName(SafeLabel(init[g].location))] == init[g].rows
    ensures var files := before[FileName(SafeLabel(groups[|groups| - 1].location)) := groups[|groups| - 1].rows];
            && (forall grp :: grp in groups ==> FileName(SafeLabel(grp.location)) in files)
            && (forall n :: n in files ==> exists grp :: grp in groups && FileName(SafeLabel(grp.location)) == n)
            && (forall g :: 0 <= g < |groups| && LastWithLabel(groups, g) ==>
                  files[FileName(SafeLabel(groups[g].location))] == groups[g].rows)
  {
    var last := groups[|groups| - 1];
    assert groups == init + [last];
    WrittenNamesStep(init, last, before);
    LastWriteKeepsOthers(init, last, before);
  }

  /** Writing one more group adds its file name to the names of the
      files written before. */
  lemma WrittenNamesStep(init: seq<Group>, last: Group, before: map<string, seq<ClusterRow>>)
    requires forall grp :: grp in init ==> FileName(SafeLabel(grp.location)) in before
    requires forall n :: n in before ==> exists grp :: grp in init && FileName(SafeLabel(grp.location)) == n
    ensures var files := before[FileName(SafeLabel(last.location)) := last.rows];
            && (forall grp :: grp in init + [last] ==> FileName(SafeLabel(grp.location)) in files)
            && (forall n :: n in files ==> exists grp :: grp in init + [last] && FileName(SafeLabel(grp.location)) == n)
  {
    var files := before[FileName(SafeLabel(last.location)) := last.rows];
    forall n | n in files
      ensures exists grp :: grp in init + [last] && FileName(SafeLabel(grp.location)) == n
    {
      if n == FileName(SafeLabel(last.location)) {
        assert last in init + [last];
      } else {
        var grp :| grp in init && FileName(SafeLabel(grp.location)) == n;
        assert grp in init + [last];
      }
    }
  }

  /** Writing one more group leaves the file of every earlier group whose
      label it does not share as it was. */
  lemma LastWriteKeepsOthers(init: seq<Group>, last: Group, before: map<string, seq<ClusterRow>>)
    requires forall grp :: grp in init ==> FileName(SafeLabel(grp.location)) in before
    requires forall g :: 0 <= g < |init| && LastWithLabel(init, g) ==>
      before[FileName(SafeLabel(init[g].location))] == init[g].rows
    ensures var files := before[FileName(SafeLabel(last.location)) := last.rows];
            forall g :: 0 <= g < |init| && LastWithLabel(init + [last], g) ==>
              files[FileName(SafeLabel(init[g].location))] == init[g].rows
  {
    var groups := init + [last];
    forall g | 0 <= g < |init| && LastWithLabel(groups, g)
      ensures FileName(SafeLabel(init[g].location)) != FileName(SafeLabel(last.location))
      ensures before[FileName(SafeLabel(init[g].location))] == init[g].rows
    {
      assert groups[g] == init[g] && groups[|init|] == last;
      assert LastWithLabel(init, g) by {
        forall h | g < h < |init|
          ensures SafeLabel(init[h].location) != SafeLabel(init[g].location)
        {
          assert groups[h] == init[h];
        }
      }
      if FileName(SafeLabel(init[g].location)) == FileName(SafeLabel(last.location)) {
        FileNameInjective(SafeLabel(init[g].location), SafeLabel(last.location));
      }
    }
  }

  /** Two distinct locations with the same label: both groups are written
      to one file, the later replaces the earlier, and one of the two rows of
      the table is in no file. */
  lemma SharedLabelLosesRow(a: LocatedTerm, b: LocatedTerm)
    requires a.location != b.location
    requires SafeLabel(a.location) == SafeLabel(b.location)
    requires a.terms != b.terms
    ensures var files := WriteGroupFiles(Split([a, b]));
            && files.Keys == {FileName(SafeLabel(a.location))}
            && !(ClusterRowOf(a) in files[FileName(SafeLabel(a.location))]
                 && ClusterRowOf(b) in files[FileName(SafeLabel(a.location))])
  {
    var name := FileName(SafeLabel(a.location));
    var groups := Split([a, b]);
    TwoLocationsGroups(a, b);
    SharedFileName(groups, a.location, b.location);
    OneNameOneFile(groups, name);
    var kept := WriteGroupFiles(groups)[name];
    assert kept == groups[|groups| - 1].rows;
    OneRowNotBoth(kept, ClusterRowOf(a), ClusterRowOf(b));
  }

  /** When every group sits at one of two locations with the same label,
      every group names the same file. */
  lemma SharedFileName(groups: seq<Group>, x: string, y: string)
    requires SafeLabel(x) == SafeLabel(y)
    requires forall grp :: grp in groups ==> grp.location == x || grp.location == y
    ensures forall grp :: grp in groups ==> FileName(SafeLabel(grp.location)) == FileName(SafeLabel(x))
  {}

  /** A table of one row does not hold two distinct rows. */
  lemma OneRowNotBoth(kept: seq<ClusterRow>, x: ClusterRow, y: ClusterRow)
    requires kept == [x] || kept == [y]
    requires x != y
    ensures !(x in kept && y in kept)
  {}

  /** A table of two rows at distinct locations splits into groups keyed by
      those locations, the last of which holds just one of the two rows. */
  lemma TwoLocationsGroups(a: LocatedTerm, b: LocatedTerm)
    requires a.location != b.location
    ensures var groups := Split([a, b]);
            && groups != []
            && (forall grp :: grp in groups ==> grp.location == a.location || grp.location == b.location)
            && (groups[|groups| - 1].rows == [ClusterRowOf(a)] || groups[|groups| - 1].rows == [ClusterRowOf(b)])
  {
    var rows := [a, b];
    var groups := Split(rows);
    TwoRowLocations(a, b);
    forall grp | grp in groups
      ensures grp.location == a.location || grp.location == b.location
    {
      assert grp.location in Locations(groups);
    }
    assert groups != [] by {
      assert a.location in Locations(groups);
    }
    var last := groups[|groups| - 1];
    assert last in groups;
    assert last.rows == GroupRows(rows, last.location);
    SingleRowAt(a, b);
  }

  /** A two-row table has the locations of its two rows. */
  lemma TwoRowLocations(a: LocatedTerm, b: LocatedTerm)
    ensures Locations(Split([a, b])) == {a.location, b.location}
  {
    var rows := [a, b];
    assert rows[0] == a && rows[1] == b;
  }

  /** When every group's label names the same file, that file is the only
      one and holds the last group's rows. */
  lemma {:induction false} OneNameOneFile(groups: seq<Group>, name: string)
    requires groups != []
    requires forall grp :: grp in groups ==> FileName(SafeLabel(grp.location)) == name
    ensures WriteGroupFiles(groups).Keys == {name}
    ensures WriteGroupFiles(groups)[name] == groups[|groups| - 1].rows
    decreases |groups|
  {
    var last := groups[|groups| - 1];
    var init := groups[..|groups| - 1];
    assert last in groups;
    if |init| > 0 {
      assert forall grp :: grp in init ==> grp in groups;
      OneNameOneFile(init, name);
    }
  }

  /** In a two-row table with distinct locations, each location's output is
      its one row. */
  lemma SingleRowAt(a: LocatedTerm, b: LocatedTerm)
    requires a.location != b.location
    ensures GroupRows([a, b], a.location) == [ClusterRowOf(a)]
    ensures GroupRows([a, b], b.location) == [ClusterRowOf(b)]
  {
    assert [a, b][1..] == [b];
    assert [b][1..] == [];
  }

  /** Locations that differ only in which separator (space or slash) they
      use at some positions share a label. */
  lemma SeparatorsShareLabel(x: string, y: string)
    requires |x| == |y|
    requires forall i :: 0 <= i < |x| ==> x[i] == y[i] || (x[i] in " /" && y[i] in " /")
    ensures SafeLabel(x) == SafeLabel(y)
  {}

  /** "North Clinic" and "North/Clinic" differ but share a label. */
  lemma NorthClinicLabelsCollide()
    ensures "North Clinic" != "North/Clinic"
    ensures SafeLabel("North/Clinic") == SafeLabel("North Clinic")
  {
    var x, y := "North Clinic", "North/Clinic";
    assert x[5] != y[5];
    assert forall i :: 0 <= i < |x| && i != 5 ==> x[i] == y[i];
    SeparatorsShareLabel(x, y);
  }

  /** A concrete pair: "North Clinic" and "North/Clinic" both become
      "North_Clinic", so only one file is written and one of the two terms
      is in no file. */
  lemma CollidingLabelsLoseRows()
    ensures var rows := [LocatedTerm("implants", "North Clinic"), LocatedTerm("whitening", "North/Clinic")];
            var files := WriteGroupFiles(Split(rows));
            var name := FileName(SafeLabel("North Clinic"));
            && files.Keys == {name}
            && !(ClusterRowOf(rows[0]) in files[name] && ClusterRowOf(rows[1]) in files[name])
  {
    NorthClinicLabelsCollide();
    assert "implants" != "whitening" by {
      assert "implants"[0] != "whitening"[0];
    }
    SharedLabelLosesRow(LocatedTerm("implants", "North Clinic"), LocatedTerm("whitening", "North/Clinic"));
  }

  /** Every row of `grp` is in the file named after its label. */
  predicate WrittenTo(files: map<string, seq<ClusterRow>>, grp: Group) {
    && FileName(SafeLabel(grp.location)) in files
    && forall r :: r in grp.rows ==> r in files[FileName(SafeLabel(grp.location))]
  }

  /** The output directory when a group whose label is already taken adds its
      rows to that file instead of replacing it. */
  function WriteGroupFilesMerged(groups: seq<Group>): (files: map<string, seq<ClusterRow>>)
    ensures forall grp :: grp in groups ==> WrittenTo(files, grp)
    ensures forall n :: n in files ==> forall r :: r in files[n] ==>
      exists grp :: grp in groups && FileName(SafeLabel(grp.location)) == n && r in grp.rows
  {
    if |groups| == 0 then map[]
    else
      var last := groups[|groups| - 1];
      var name := FileName(SafeLabel(last.location));
      var init := groups[..|groups| - 1];
      assert groups == init + [last];
      var before := WriteGroupFilesMerged(init);
      var existing := if name in before then before[name] else [];
      var files := before[name := existing + last.rows];
      assert forall grp :: grp in init ==> WrittenTo(files, grp) by {
        forall grp | grp in init
          ensures WrittenTo(files, grp)
        {
          assert WrittenTo(before, grp);
        }
      }
      assert WrittenTo(files, last);
      files
  }

  /** With merged writes, every row of the table is in the file named after
      its own location's label. */
  lemma MergedFilesKeepEveryRow(rows: seq<LocatedTerm>, i: int)
    requires 0 <= i < |rows|
    ensures FileName(SafeLabel(rows[i].location)) in WriteGroupFilesMerged(Split(rows))
    ensures ClusterRowOf(rows[i]) in WriteGroupFilesMerged(Split(rows))[FileName(SafeLabel(rows[i].location))]
  {
    var groups := Split(rows);
    RowInExactlyOneGroup(rows, i);
    var g :| 0 <= g < |groups| && groups[g].location == rows[i].location;
    assert groups[g] in groups;
    assert WrittenTo(WriteGroupFilesMerged(groups), groups[g]);
  }
}

=== FILE: pipeline.dfy ===
/** The four table-to-table stages of the keyword pipeline, with files
    replaced by the tables they hold, and the pipeline they form. */
module Pipeline {
  import opened Tables
  import opened Categories
  import opened Potential
  import opened DecisionMatrix
  import opened Partition

  /** The columns the stages read from a merged row: `URL CTR`,
      `Average Position`, `Search Volume` and
      `Clinic Location - Landing pages`. Which input file supplies each one
      depends on the files, so a merged row's columns are read through a
      caller-supplied function. */
  datatype Columns = Columns(urlCtr: real, averagePosition: real, searchVolume: real, location: string)

  /** A merged row with its `CTR Category` and `Position Category` columns. */
  datatype Categorized<A, B> = Categorized(source: Joined<A, B>, ctr: CtrCategory, position: PositionCategory)

  /** A categorised row with its `Norm Volume` and `Potential Category` columns. */
  datatype Scored<A, B> = Scored(row: Categorized<A, B>, normVolume: real, potential: PotentialCategory)

  /** A scored row with its `Next Steps` column. */
  datatype Actioned<A, B> = Actioned(row: Scored<A, B>, nextStep: string)

  function CategorizeRow<A, B>(x: Joined<A, B>, read: Joined<A, B> -> Columns): Categorized<A, B> {
    Categorized(x, CategorizeCtr(read(x).urlCtr), CategorizePosition(read(x).averagePosition))
  }

  /** Stage one: inner join on `Terms`, both categories added to every row,
      then exact duplicate rows dropped. */
  function MergeAndCategorize<A(==), B(==)>(ads: seq<Keyed<A>>, console: seq<Keyed<B>>, read: Joined<A, B> -> Columns)
    : (r: seq<Categorized<A, B>>)
    ensures NoDuplicates(r)
    ensures forall k :: 0 <= k < |r| ==> r[k].source in Join(ads, console) && r[k] == CategorizeRow(r[k].source, read)
    ensures forall m :: 0 <= m < |Join(ads, console)| ==> CategorizeRow(Join(ads, console)[m], read) in r
  {
    var merged := Join(ads, console);
    var categorized := seq(|merged|, m requires 0 <= m < |merged| => CategorizeRow(merged[m], read));
    var r := DropDuplicates(categorized);
    assert forall k :: 0 <= k < |r| ==> r[k].source in merged && r[k] == CategorizeRow(r[k].source, read) by {
      forall k | 0 <= k < |r|
        ensures r[k].source in merged && r[k] == CategorizeRow(r[k].source, read)
      {
        var m :| 0 <= m < |categorized| && categorized[m] == r[k];
      }
    }
    forall m | 0 <= m < |merged|
      ensures CategorizeRow(merged[m], read) in r
    {
      assert categorized[m] in r;
    }
    r
  }

  function ScoreRow<A, B>(x: Categorized<A, B>, read: Joined<A, B> -> Columns, numClinics: real, rate: real): Scored<A, B>
    requires numClinics > 0.0
  {
    var norm := NormVolume(read(x.source).searchVolume, numClinics, rate).value;
    Scored(x, norm, CategorizePotential(norm))
  }

  /** Stage two: `Norm Volume` and `Potential Category` added to every row;
      a clinic count that is not positive is refused. */
  function AddNormalizedVolumeAndPotential<A, B>(rows: seq<Categorized<A, B>>, read: Joined<A, B> -> Columns,
                                                 numClinics: real := DefaultNumClinics,
                                                 rate: real := DefaultConversionRate)
    : (r: Result<seq<Scored<A, B>>>)
    ensures r.Err? <==> numClinics <= 0.0
    ensures r.Ok? ==> |r.value| == |rows|
    ensures r.Ok? ==> forall k :: 0 <= k < |rows| ==>
      && r.value[k].row == rows[k]
      && r.value[k].normVolume * numClinics == read(rows[k].source).searchVolume * rate
      && r.value[k].potential == CategorizePotential(r.value[k].normVolume)
  {
    if numClinics <= 0.0 then Err(NonPositiveClinicCount(numClinics))
    else Ok(seq(|rows|, k requires 0 <= k < |rows| => ScoreRow(rows[k], read, numClinics, rate)))
  }

  /** A categorised row scored as the code does it, with a floating-point
      `Norm Volume`. */
  datatype FloatScored<A, B> = FloatScored(row: Categorized<A, B>, normVolume: FloatValue, potential: PotentialCategory)

  /** Stage two exactly as written: no clinic count is refused. A zero count
      gives non-finite volumes, and a negative one gives negative volumes. */
  function AddNormalizedVolumeAndPotentialAsWritten<A, B>(rows: seq<Categorized<A, B>>, read: Joined<A, B> -> Columns,
                                                          numClinics: real := DefaultNumClinics,
                                                          rate: real := DefaultConversionRate)
    : (r: seq<FloatScored<A, B>>)
    ensures |r| == |rows|
    ensures forall k :: 0 <= k < |rows| ==>
      && r[k].row == rows[k]
      && r[k].potential == PotentialOfFloat(r[k].normVolume)
      && (numClinics != 0.0 ==>
            (r[k].normVolume.Finite?
             && r[k].normVolume.value * numClinics == read(rows[k].source).searchVolume * rate))
      && (numClinics == 0.0 ==> !r[k].normVolume.Finite?)
  {
    seq(|rows|, k requires 0 <= k < |rows| => ScoreRowAsWritten(rows[k], read, numClinics, rate))
  }

  function ScoreRowAsWritten<A, B>(x: Categorized<A, B>, read: Joined<A, B> -> Columns, numClinics: real, rate: real)
    : FloatScored<A, B>
  {
    var norm := NormVolumeAsWritten(read(x.source).searchVolume, numClinics, rate);
    FloatScored(x, norm, PotentialOfFloat(norm))
  }

  /** For a positive clinic count the checked stage and the stage as written
      give every row the same volume and potential. */
  lemma CheckedStageAgreesWhenValid<A, B>(rows: seq<Categorized<A, B>>, read: Joined<A, B> -> Columns,
                                          numClinics: real, rate: real)
    requires numClinics > 0.0
    ensures var checked := AddNormalizedVolumeAndPotential(rows, read, numClinics, rate);
            var asWritten := AddNormalizedVolumeAndPotentialAsWritten(rows, read, numClinics, rate);
            && checked.Ok?
            && forall k :: 0 <= k < |rows| ==>
                 && asWritten[k].normVolume == Finite(checked.value[k].normVolume)
                 && asWritten[k].potential == checked.value[k].potential
  {
    var checked := AddNormalizedVolumeAndPotential(rows, read, numClinics, rate).value;
    var asWritten := AddNormalizedVolumeAndPotentialAsWritten(rows, read, numClinics, rate);
    forall k | 0 <= k < |rows|
      ensures asWritten[k].normVolume == Finite(checked[k].normVolume)
      ensures asWritten[k].potential == checked[k].potential
    {
      var volume := read(rows[k].source).searchVolume;
      NormVolumeAgreesWhenValid(volume, numClinics, rate);
      assert checked[k] == ScoreRow(rows[k], read, numClinics, rate);
    }
  }

  /** The `Next Steps` value of a row, computed as the row function does from
      the three stored category labels. */
  function NextStepOfRow<A, B>(x: Scored<A, B>): string {
    NextStepOfLabels(CtrLabel(x.row.ctr), PositionLabel(x.row.position), PotentialLabel(x.potential))
  }

  /** Stage three: the decision matrix applied to every row. */
  function DetermineNextSteps<A, B>(rows: seq<Scored<A, B>>): (r: seq<Actioned<A, B>>)
    ensures |r| == |rows|
    ensures forall k :: 0 <= k < |rows| ==>
      r[k].row == rows[k] && r[k].nextStep == NextStep(Triple(rows[k].row.ctr, rows[k].row.position, rows[k].potential))
  {
    var r := seq(|rows|, k requires 0 <= k < |rows| => Actioned(rows[k], NextStepOfRow(rows[k])));
    assert forall k :: 0 <= k < |rows| ==>
      r[k].nextStep == NextStep(Triple(rows[k].row.ctr, rows[k].row.position, rows[k].potential)) by {
      forall k | 0 <= k < |rows|
        ensures r[k].nextStep == NextStep(Triple(rows[k].row.ctr, rows[k].row.position, rows[k].potential))
      {
        TableMatchesChain(Triple(rows[k].row.ctr, rows[k].row.position, rows[k].potential));
      }
    }
    r
  }

  /** The `Terms` and location columns of the final table. */
  function Located<A, B>(rows: seq<Actioned<A, B>>, read: Joined<A, B> -> Columns): seq<LocatedTerm> {
    seq(|rows|, k requires 0 <= k < |rows| =>
      LocatedTerm(rows[k].row.row.source.terms, read(rows[k].row.row.source).location))
  }

  /** Stage four: the final table split by location, without the file
      writing. There is one group per location of the table, each holding
      exactly that location's rows, and the groups' outputs together hold
      every row exactly once. */
  function SplitByClinic<A, B>(rows: seq<Actioned<A, B>>, read: Joined<A, B> -> Columns): (groups: seq<Group>)
    ensures multiset(AllClusterRows(groups)) == multiset(ClusterRowsOf(Located(rows, read)))
    ensures forall g1, g2 :: 0 <= g1 < g2 < |groups| ==> groups[g1].location != groups[g2].location
    ensures Locations(groups) == set k | 0 <= k < |rows| :: read(rows[k].row.row.source).location
    ensures forall g :: 0 <= g < |groups| ==> groups[g].rows == GroupRows(Located(rows, read), groups[g].location)
  {
    SplitPreservesRows(Located(rows, read));
    SplitGroupsHoldTheirRows(Located(rows, read));
    LocatedLocations(rows, read);
    Split(Located(rows, read))
  }

  /** The locations of the final table are those read from its rows. */
  lemma LocatedLocations<A, B>(rows: seq<Actioned<A, B>>, read: Joined<A, B> -> Columns)
    ensures (set i | 0 <= i < |Located(rows, read)| :: Located(rows, read)[i].location)
         == set k | 0 <= k < |rows| :: read(rows[k].row.row.source).location
  {
    var located := Located(rows, read);
    assert forall i :: 0 <= i < |located| ==> located[i].location == read(rows[i].row.row.source).location;
  }

  /** The four stages in order: refused for a clinic count that is not
      positive, otherwise one group per distinct location. */
  function RunPipeline<A(==), B(==)>(ads: seq<Keyed<A>>, console: seq<Keyed<B>>, read: Joined<A, B> -> Columns,
                                     numClinics: real := DefaultNumClinics, rate: real := DefaultConversionRate)
    : (r: Result<seq<Group>>)
    ensures r.Err? <==> numClinics <= 0.0
    ensures r.Err? ==> r.error == NonPositiveClinicCount(numClinics)
    ensures r.Ok? ==> forall g1, g2 :: 0 <= g1 < g2 < |r.value| ==> r.value[g1].location != r.value[g2].location
  {
    match AddNormalizedVolumeAndPotential(MergeAndCategorize(ads, console, read), read, numClinics, rate)
    case Err(e) => Err(e)
    case Ok(scored) => Ok(SplitByClinic(DetermineNextSteps(scored), read))
  }

  /** The terms of the merged stage are the keys of the join. */
  lemma MergedTerms<A, B>(ads: seq<Keyed<A>>, console: seq<Keyed<B>>, read: Joined<A, B> -> Columns)
    ensures var merged := MergeAndCategorize(ads, console, read);
            (set k | 0 <= k < |merged| :: merged[k].source.terms) == KeySet(ads) * KeySet(console)
  {
    SameTerms(MergeAndCategorize(ads, console, read), Join(ads, console), read);
    JoinKeys(ads, console);
  }

  /** Categorised rows drawn from a table, covering all of it, carry exactly
      the table's terms. */
  lemma SameTerms<A, B>(merged: seq<Categorized<A, B>>, joined: seq<Joined<A, B>>, read: Joined<A, B> -> Columns)
    requires forall k :: 0 <= k < |merged| ==> merged[k].source in joined
    requires forall m :: 0 <= m < |joined| ==> CategorizeRow(joined[m], read) in merged
    ensures (set k | 0 <= k < |merged| :: merged[k].source.terms) == JoinedKeySet(joined)
  {
    forall t
      ensures t in (set k | 0 <= k < |merged| :: merged[k].source.terms) <==> t in JoinedKeySet(joined)
    {
      if t in (set k | 0 <= k < |merged| :: merged[k].source.terms) {
        var k :| 0 <= k < |merged| && merged[k].source.terms == t;
        var m :| 0 <= m < |joined| && joined[m] == merged[k].source;
      }
      if t in JoinedKeySet(joined) {
        var m :| 0 <= m < |joined| && joined[m].terms == t;
        var k :| 0 <= k < |merged| && merged[k] == CategorizeRow(joined[m], read);
      }
    }
  }

  /** End to end: with a positive clinic count the pipeline succeeds, and a
      term is in some group's output exactly when it is a key of both input
      files. */
  lemma PipelineKeepsJoinedTerms<A, B>(ads: seq<Keyed<A>>, console: seq<Keyed<B>>,
                                       read: Joined<A, B> -> Columns, numClinics: real, rate: real)
    requires numClinics > 0.0
    ensures RunPipeline(ads, console, read, numClinics, rate).Ok?
    ensures OutputTerms(RunPipeline(ads, console, read, numClinics, rate).value) == KeySet(ads) * KeySet(console)
  {
    var merged := MergeAndCategorize(ads, console, read);
    var scored := AddNormalizedVolumeAndPotential(merged, read, numClinics, rate).value;
    var actioned := DetermineNextSteps(scored);
    var located := Located(actioned, read);
    assert RunPipeline(ads, console, read, numClinics, rate) == Ok(SplitByClinic(actioned, read));
    assert SplitByClinic(actioned, read) == Split(located);
    LocatedTermsAreMergedTerms(merged, scored, actioned, located);
    SplitTerms(located);
    MergedTerms(ads, console, read);
  }

  lemma LocatedTermsAreMergedTerms<A, B>(merged: seq<Categorized<A, B>>, scored: seq<Scored<A, B>>,
                                         actioned: seq<Actioned<A, B>>, located: seq<LocatedTerm>)
    requires |scored| == |merged| && |actioned| == |scored| && |located| == |actioned|
    requires forall k :: 0 <= k < |scored| ==> scored[k].row == merged[k]
    requires forall k :: 0 <= k < |actioned| ==> actioned[k].row == scored[k]
    requires forall k :: 0 <= k < |located| ==> located[k].terms == actioned[k].row.row.source.terms
    ensures (set k | 0 <= k < |located| :: located[k].terms) == (set k | 0 <= k < |merged| :: merged[k].source.terms)
  {
    assert forall k :: 0 <= k < |located| ==> located[k].terms == merged[k].source.terms;
  }
}

=== FILE: potential.dfy ===
/** Normalised search volume and the potential category derived from it. */
module Potential {
  import opened Categories

  /** Default number of clinics the search volume is shared between. */
  const DefaultNumClinics: real := 35.0
  /** Default conversion rate applied to the per-clinic volume. */
  const DefaultConversionRate: real := 0.1119

  /** A floating-point column value as far as this stage can produce one:
      finite, an infinity, or not-a-number. */
  datatype FloatValue = Finite(value: real) | PlusInfinity | MinusInfinity | NotANumber

  /** Column division as a table library performs it: dividing by zero does
      not fail but gives an infinity, or not-a-number for zero over zero. */
  function FloatDivide(x: real, d: real): (e: FloatValue)
    ensures d != 0.0 ==> e.Finite? && e.value * d == x
    ensures d == 0.0 ==> !e.Finite?
  {
    if d != 0.0 then Finite(x / d)
    else if x > 0.0 then PlusInfinity
    else if x < 0.0 then MinusInfinity
    else NotANumber
  }

  /** Multiplication of a column value by a scalar. */
  function FloatScale(e: FloatValue, k: real): (f: FloatValue)
    ensures e.Finite? <==> f.Finite?
    ensures e.NotANumber? ==> f.NotANumber?
  {
    match e
    case Finite(x) => Finite(x * k)
    case PlusInfinity => if k > 0.0 then PlusInfinity else if k < 0.0 then MinusInfinity else NotANumber
    case MinusInfinity => if k > 0.0 then MinusInfinity else if k < 0.0 then PlusInfinity else NotANumber
    case NotANumber => NotANumber
  }

  /** `e < k` on floating-point values: false whenever `e` is not a number. */
  predicate FloatLess(e: FloatValue, k: real) {
    match e
    case Finite(x) => x < k
    case PlusInfinity => false
    case MinusInfinity => true
    case NotANumber => false
  }

  /** `e <= k` on floating-point values: false whenever `e` is not a number. */
  predicate FloatAtMost(e: FloatValue, k: real) {
    match e
    case Finite(x) => x <= k
    case PlusInfinity => false
    case MinusInfinity => true
    case NotANumber => false
  }

  /** The normalised volume exactly as computed: volume divided by the clinic
      count, times the conversion rate, with no check on the clinic count. */
  function NormVolumeAsWritten(volume: real, numClinics: real, rate: real): (e: FloatValue)
    ensures numClinics != 0.0 ==> e.Finite? && e.value * numClinics == volume * rate
    ensures numClinics == 0.0 ==> !e.Finite?
    ensures numClinics == 0.0 && volume == 0.0 ==> e.NotANumber?
    ensures numClinics == 0.0 && volume > 0.0 && rate > 0.0 ==> e.PlusInfinity?
  {
    FloatScale(FloatDivide(volume, numClinics), rate)
  }

  /** The potential categoriser applied to a floating-point value: a value that
      fails both comparisons falls through to the last branch. */
  function PotentialOfFloat(e: FloatValue): (v: PotentialCategory)
    ensures e.Finite? ==> v == CategorizePotential(e.value)
    ensures e.NotANumber? ==> v == GoodPotential
    ensures e.PlusInfinity? ==> v == GoodPotential
    ensures e.MinusInfinity? ==> v == BadPotential
  {
    if FloatLess(e, BadPotentialLimit) then BadPotential
    else if FloatAtMost(e, MediumPotentialLimit) then MediumPotential
    else GoodPotential
  }

  /** With no clinics, every term is rated as having good potential: a
      positive search volume becomes an infinity and no volume at all becomes
      not-a-number. With the default clinic count a term with no search volume
      is rated bad. */
  lemma ZeroClinicsGiveGoodPotential(volume: real)
    requires volume >= 0.0
    ensures !NormVolumeAsWritten(volume, 0.0, DefaultConversionRate).Finite?
    ensures PotentialOfFloat(NormVolumeAsWritten(volume, 0.0, DefaultConversionRate)) == GoodPotential
    ensures PotentialOfFloat(NormVolumeAsWritten(0.0, DefaultNumClinics, DefaultConversionRate)) == BadPotential
  {}

  /** A negative clinic count is not refused either: a term with search
      volume gets a negative norm volume and is rated as having bad potential. */
  lemma NegativeClinicsGiveBadPotential(volume: real, numClinics: real, rate: real)
    requires numClinics < 0.0 && volume >= 0.0 && rate >= 0.0
    ensures NormVolumeAsWritten(volume, numClinics, rate).Finite?
    ensures NormVolumeAsWritten(volume, numClinics, rate).value <= 0.0
    ensures PotentialOfFloat(NormVolumeAsWritten(volume, numClinics, rate)) == BadPotential
  {
    var q := volume / numClinics;
    assert q <= 0.0 by {
      assert q * numClinics == volume;
    }
    NonPositiveTimesNonNegative(q, rate);
  }

  lemma NonPositiveTimesNonNegative(x: real, k: real)
    requires x <= 0.0 && k >= 0.0
    ensures x * k <= 0.0
  {}

  /** Reasons the normalisation stage refuses its configuration. */
  datatype ConfigError = NonPositiveClinicCount(numClinics: real)

  datatype Result<T> = Ok(value: T) | Err(error: ConfigError)

  /** The normalised volume with the clinic count checked first: a clinic
      count that is not positive is an error instead of an infinity. */
  function NormVolume(volume: real, numClinics: real, rate: real): (r: Result<real>)
    ensures r.Err? <==> numClinics <= 0.0
    ensures r.Err? ==> r.error == NonPositiveClinicCount(numClinics)
    ensures r.Ok? ==> r.value * numClinics == volume * rate
  {
    if numClinics <= 0.0 then Err(NonPositiveClinicCount(numClinics))
    else Ok((volume / numClinics) * rate)
  }

  /** For every valid clinic count the checked computation gives the same
      value and category as the unchecked one. */
  lemma NormVolumeAgreesWhenValid(volume: real, numClinics: real, rate: real)
    requires numClinics > 0.0
    ensures NormVolumeAsWritten(volume, numClinics, rate) == Finite(NormVolume(volume, numClinics, rate).value)
    ensures PotentialOfFloat(NormVolumeAsWritten(volume, numClinics, rate))
         == CategorizePotential(NormVolume(volume, numClinics, rate).value)
  {}

  /** With a positive clinic count and a non-negative rate, more search volume
      never lowers the normalised volume or its potential. */
  lemma NormVolumeMonotone(v1: real, v2: real, numClinics: real, rate: real)
    requires v1 <= v2 && numClinics > 0.0 && rate >= 0.0
    ensures NormVolume(v1, numClinics, rate).value <= NormVolume(v2, numClinics, rate).value
    ensures PotentialRank(CategorizePotential(NormVolume(v1, numClinics, rate).value))
         <= PotentialRank(CategorizePotential(NormVolume(v2, numClinics, rate).value))
  {
    var n1, n2 := NormVolume(v1, numClinics, rate).value, NormVolume(v2, numClinics, rate).value;
    assert v1 / numClinics <= v2 / numClinics;
    assert n1 <= n2 by {
      MultiplyPreservesOrder(v1 / numClinics, v2 / numClinics, rate);
    }
    CategoriesMonotone(n1, n2);
  }

  lemma MultiplyPreservesOrder(a: real, b: real, k: real)
    requires a <= b && k >= 0.0
    ensures a * k <= b * k
  {}
}

=== FILE: tables.dfy ===
/** Tables as sequences of rows: the inner join on `Terms` and exact-duplicate
    row removal performed by the merge stage of the pipeline. */
module Tables {

  /** A row of one input file, keyed by its `Terms` column; `data` stands for
      the file's other columns. */
  datatype Keyed<T> = Keyed(terms: string, data: T)

  /** A row of the inner join: the shared `Terms` value followed by the other
      columns of the left row and of the right row. */
  datatype Joined<A, B> = Joined(terms: string, left: A, right: B)

  /** `x` is the join row built from left row `l` and right row `r`. */
  ghost predicate Pairs<A, B>(l: Keyed<A>, r: Keyed<B>, x: Joined<A, B>) {
    l.terms == r.terms && x == Joined(l.terms, l.data, r.data)
  }

  /** The set of `Terms` values of an input table. */
  function KeySet<T>(rows: seq<Keyed<T>>): set<string> {
    set i | 0 <= i < |rows| :: rows[i].terms
  }

  /** The set of `Terms` values of a joined table. */
  function JoinedKeySet<A, B>(rows: seq<Joined<A, B>>): set<string> {
    set i | 0 <= i < |rows| :: rows[i].terms
  }

  /** Number of input rows whose key is `t`. */
  function CountKey<T>(rows: seq<Keyed<T>>, t: string): (n: nat)
    ensures n <= |rows|
    ensures n == 0 <==> t !in KeySet(rows)
  {
    if |rows| == 0 then 0
    else
      assert KeySet(rows) == {rows[0].terms} + KeySet(rows[1..]) by {
        assert forall i :: 0 < i < |rows| ==> rows[i] == rows[1..][i - 1];
      }
      (if rows[0].terms == t then 1 else 0) + CountKey(rows[1..], t)
  }

  /** Number of joined rows whose key is `t`. */
  function CountJoined<A, B>(rows: seq<Joined<A, B>>, t: string): (n: nat)
    ensures n <= |rows|
    ensures n == 0 <==> t !in JoinedKeySet(rows)
  {
    if |rows| == 0 then 0
    else
      assert JoinedKeySet(rows) == {rows[0].terms} + JoinedKeySet(rows[1..]) by {
        assert forall i :: 0 < i < |rows| ==> rows[i] == rows[1..][i - 1];
      }
      (if rows[0].terms == t then 1 else 0) + CountJoined(rows[1..], t)
  }

  lemma {:induction false} CountJoinedAppend<A, B>(a: seq<Joined<A, B>>, b: seq<Joined<A, B>>, t: string)
    ensures CountJoined(a + b, t) == CountJoined(a, t) + CountJoined(b, t)
    decreases |a|
  {
    if |a| == 0 {
      assert a + b == b;
    } else {
      assert (a + b)[1..] == a[1..] + b;
      CountJoinedAppend(a[1..], b, t);
    }
  }

  /** The join rows contributed by one left row: one per right row with the
      same key, in right-table order. */
  function Matches<A, B>(l: Keyed<A>, right: seq<Keyed<B>>): (r: seq<Joined<A, B>>)
    ensures forall x :: x in r ==> exists j :: 0 <= j < |right| && Pairs(l, right[j], x)
  {
    if |right| == 0 then []
    else
      var head := if right[0].terms == l.terms then [Joined(l.terms, l.data, right[0].data)] else [];
      var tail := Matches(l, right[1..]);
      assert forall x :: x in tail ==> exists j :: 0 <= j < |right| && Pairs(l, right[j], x) by {
        forall x | x in tail
          ensures exists j :: 0 <= j < |right| && Pairs(l, right[j], x)
        {
          var j :| 0 <= j < |right[1..]| && Pairs(l, right[1..][j], x);
          assert Pairs(l, right[j + 1], x);
        }
      }
      head + tail
  }

  /** Inner join on `Terms`: every left row paired with every right row that
      has the same key, left rows in order. Keys that occur several times on
      both sides produce every pairing. */
  function Join<A, B>(left: seq<Keyed<A>>, right: seq<Keyed<B>>): (r: seq<Joined<A, B>>)
    ensures forall x :: x in r ==>
      exists i, j :: 0 <= i < |left| && 0 <= j < |right| && Pairs(left[i], right[j], x)
  {
    if |left| == 0 then []
    else
      var head := Matches(left[0], right);
      var tail := Join(left[1..], right);
      assert forall x :: x in tail ==>
        exists i, j :: 0 <= i < |left| && 0 <= j < |right| && Pairs(left[i], right[j], x) by {
        forall x | x in tail
          ensures exists i, j :: 0 <= i < |left| && 0 <= j < |right| && Pairs(left[i], right[j], x)
        {
          var i, j :| 0 <= i < |left[1..]| && 0 <= j < |right| && Pairs(left[1..][i], right[j], x);
          assert Pairs(left[i + 1], right[j], x);
        }
      }
      assert forall x :: x in head ==>
        exists i, j :: 0 <= i < |left| && 0 <= j < |right| && Pairs(left[i], right[j], x) by {
        forall x | x in head
          ensures exists i, j :: 0 <= i < |left| && 0 <= j < |right| && Pairs(left[i], right[j], x)
        {
          var j :| 0 <= j < |right| && Pairs(left[0], right[j], x);
          assert Pairs(left[0], right[j], x);
        }
      }
      head + tail
  }

  lemma {:induction false} MatchesComplete<A, B>(l: Keyed<A>, right: seq<Keyed<B>>, j: int)
    requires 0 <= j < |right| && right[j].terms == l.terms
    ensures Joined(l.terms, l.data, right[j].data) in Matches(l, right)
    decreases |right|
  {
    if j > 0 {
      assert right[1..][j - 1] == right[j];
      MatchesComplete(l, right[1..], j - 1);
    }
  }

  /** Every pair of rows with equal keys appears in the join. */
  lemma {:induction false} JoinComplete<A, B>(left: seq<Keyed<A>>, right: seq<Keyed<B>>, i: int, j: int)
    requires 0 <= i < |left| && 0 <= j < |right|
    requires left[i].terms == right[j].terms
    ensures Joined(left[i].terms, left[i].data, right[j].data) in Join(left, right)
    decreases |left|
  {
    if i == 0 {
      MatchesComplete(left[0], right, j);
    } else {
      assert left[1..][i - 1] == left[i];
      JoinComplete(left[1..], right, i - 1, j);
    }
  }

  lemma {:induction false} MatchesCount<A, B>(l: Keyed<A>, right: seq<Keyed<B>>, t: string)
    ensures CountJoined(Matches(l, right), t) == if l.terms == t then CountKey(right, t) else 0
    decreases |right|
  {
    if |right| > 0 {
      var head := if right[0].terms == l.terms then [Joined(l.terms, l.data, right[0].data)] else [];
      CountJoinedAppend(head, Matches(l, right[1..]), t);
      MatchesCount(l, right[1..], t);
    }
  }

  /** A key occurring m times on the left and n times on the right occurs
      m * n times in the join. */
  lemma {:induction false} JoinCount<A, B>(left: seq<Keyed<A>>, right: seq<Keyed<B>>, t: string)
    ensures CountJoined(Join(left, right), t) == CountKey(left, t) * CountKey(right, t)
    decreases |left|
  {
    if |left| > 0 {
      var head, tail := Matches(left[0], right), Join(left[1..], right);
      assert Join(left, right) == head + tail;
      CountJoinedAppend(head, tail, t);
      MatchesCount(left[0], right, t);
      JoinCount(left[1..], right, t);
      CountStep(CountJoined(Join(left, right), t), CountJoined(head, t), CountJoined(tail, t),
                CountKey(left, t), CountKey(left[1..], t), CountKey(right, t));
    }
  }

  /** The arithmetic of one step of the join count: the first left row adds
      either n matches and one to the left count, or nothing. */
  lemma CountStep(total: nat, h: nat, tl: nat, l: nat, m: nat, n: nat)
    requires total == h + tl && tl == m * n
    requires (l == 1 + m && h == n) || (l == m && h == 0)
    ensures total == l * n
  {
    if l == 1 + m {
      SuccTimes(m, n);
    }
  }

  lemma SuccTimes(m: nat, n: nat)
    ensures (1 + m) * n == n + m * n
  {}

  /** A term is in the join exactly when it is a key of both inputs. */
  lemma JoinKeys<A, B>(left: seq<Keyed<A>>, right: seq<Keyed<B>>)
    ensures JoinedKeySet(Join(left, right)) == KeySet(left) * KeySet(right)
  {
    forall t
      ensures t in JoinedKeySet(Join(left, right)) <==> t in KeySet(left) && t in KeySet(right)
    {
      JoinCount(left, right, t);
      ProductZero(CountKey(left, t), CountKey(right, t));
    }
  }

  lemma ProductZero(m: nat, n: nat)
    ensures m * n == 0 <==> m == 0 || n == 0
  {
    if m > 0 && n > 0 {
      assert m * n >= n;
    }
  }

  /** No two rows of `s` are equal. */
  predicate NoDuplicates<T(==)>(s: seq<T>) {
    forall i, j :: 0 <= i < j < |s| ==> s[i] != s[j]
  }

  /** Exact-duplicate row removal: keeps the first occurrence of every row,
      in input order. */
  function DropDuplicates<T(==)>(s: seq<T>): (r: seq<T>)
    ensures NoDuplicates(r)
    ensures forall i :: 0 <= i < |s| ==> s[i] in r
    ensures forall i :: 0 <= i < |r| ==> r[i] in s
    ensures |r| <= |s|
  {
    if |s| == 0 then []
    else
      var rest := DropDuplicates(s[..|s| - 1]);
      assert forall i :: 0 <= i < |s| - 1 ==> s[i] == s[..|s| - 1][i];
      if s[|s| - 1] in rest then rest else rest + [s[|s| - 1]]
  }

  /** Index of the first occurrence of `x` in `s`. */
  function FirstIndex<T(==)>(s: seq<T>, x: T): (i: nat)
    requires x in s
    ensures i < |s| && s[i] == x
    ensures forall j :: 0 <= j < i ==> s[j] != x
  {
    if s[0] == x then 0 else 1 + FirstIndex(s[1..], x)
  }

  lemma FirstIndexInPrefix<T>(s: seq<T>, x: T)
    requires |s| > 0 && x in s[..|s| - 1]
    ensures FirstIndex(s, x) == FirstIndex(s[..|s| - 1], x)
  {
    var p := s[..|s| - 1];
    var i := FirstIndex(p, x);
    assert s[i] == x;
    assert forall j :: 0 <= j < i ==> s[j] == p[j];
  }

  /** The kept rows are in the order in which they first occur in the
      input, as keeping the first of every set of equal rows gives. */
  lemma {:induction false} DropDuplicatesKeepsFirstOrder<T>(s: seq<T>)
    ensures forall i, j :: 0 <= i < j < |DropDuplicates(s)| ==>
      FirstIndex(s, DropDuplicates(s)[i]) < FirstIndex(s, DropDuplicates(s)[j])
    decreases |s|
  {
    if |s| > 0 {
      var p := s[..|s| - 1];
      var x := s[|s| - 1];
      var rest := DropDuplicates(p);
      var r := DropDuplicates(s);
      DropDuplicatesKeepsFirstOrder(p);
      forall i, j | 0 <= i < j < |r|
        ensures FirstIndex(s, r[i]) < FirstIndex(s, r[j])
      {
        assert r[i] in p by {
          assert r[i] == rest[i];
        }
        FirstIndexInPrefix(s, r[i]);
        if j < |rest| {
          assert r[j] == rest[j] && r[j] in p;
          FirstIndexInPrefix(s, r[j]);
        } else {
          assert r[j] == x && x !in rest && x !in p;
          assert FirstIndex(s, x) == |s| - 1;
        }
      }
    }
  }

  /** Dropping duplicates from a table that has none changes nothing. */
  lemma {:induction false} DropDuplicatesOfDistinct<T>(s: seq<T>)
    requires NoDuplicates(s)
    ensures DropDuplicates(s) == s
    decreases |s|
  {
    if |s| > 0 {
      var p := s[..|s| - 1];
      assert NoDuplicates(p);
      DropDuplicatesOfDistinct(p);
      assert s[|s| - 1] !in p;
      assert p + [s[|s| - 1]] == s;
    }
  }

  /** Dropping duplicates twice is the same as dropping them once. */
  lemma DropDuplicatesIdempotent<T>(s: seq<T>)
    ensures DropDuplicates(DropDuplicates(s)) == DropDuplicates(s)
  {
    DropDuplicatesOfDistinct(DropDuplicates(s));
  }
}
